=== FILE: README.md ===
# StimInspector decision logic, in Dafny

A verified model of the decision logic in the PsychoJS stimulus inspector
(`StimInspector.js`). The inspector is a floating panel. The operator clicks a
stimulus on the canvas, sees its user-facing attributes and edits them live.
The model covers four parts of it:

- **Attribute classification** (`Classifier`). The first-match dispatch over
  an attribute's run-time value picks its editing widget. That widget is a
  select, a run of inputs (possibly none), or a disabled placeholder. The
  model builds a widget description instead of HTML. The dispatch tests the
  name `units`, then arrays (decided by their first element), Color, boolean,
  number, string, any other object (null included) and undefined.
- **Edit application** (`Editor`, `Inspector.StimInspector.OnAttrInputChange`,
  `Inspector.StimInspector.OnAttrSelectChange`). An edit is first coerced by
  the input's type. The reserved texts "undefined" and "null" become those
  values. The edit writes back only to a property the stimulus owns. An
  indexed edit writes a fresh copy of the array. The edit sets or clears the
  input's error mark.
- **Click hit-testing and correlation** (`Scene`). The scan runs from the
  topmost container child down. The click then maps to the first draw-list
  stimulus drawn by the child it hit.
- **Display and filtering** (`Inspector`). Displaying a stimulus makes it the
  inspected one and builds one row per user attribute, in declared order.
  A row is hidden when its name does not contain the filter text.

Modules: `Values` (run-time values), `Classifier`, `Editor`, `Stimuli` (the
stimulus and renderable objects), `Scene`, `Inspector` (the `StimInspector`
class and its handlers) and `RoundTrip`. `RoundTrip` holds the lemmas about an
edit followed by a fresh display.

Collaborators outside the model are parameters:

- `Editor.Library` gives `parseFloat`, the Color constructor (which may throw)
  and the slider style table.
- `Stimulus.setterThrows` says which assignments a stimulus's property setters
  reject.
- `Scene.SceneChild` carries each container child's two hit tests, already
  evaluated at the click point.

## Behaviour the model follows where a reader might expect otherwise

- Text that does not parse as a number is not an error. `parseFloat` yields
  NaN, and NaN is written (`Editor.BadNumberWritesNaN`).
- The hit test has no rule for skipping non-invertible transforms. The bounds
  test simply answers for such a child.
- A click over no child can still display a stimulus. The "nothing hit" value
  (`undefined`) matches the first draw-list entry whose `_pixi` is undefined
  (`Scene.MissMatchesPixiless`).
- Interpolating a symbol into the input markup throws a TypeError, and so
  does interpolating an array that reaches a symbol through nested arrays,
  since its `join` converts every element. So a user attribute other than
  `units` (which always gets a select) holding an array whose first element
  is a primitive and a later element is, or reaches, a symbol makes
  `displayStimData` throw. That happens after the inspected stimulus has
  been switched, so the old rows stay on screen and their edits go to the new
  stimulus (`Inspector.StimInspector.DisplayStimData`,
  `Inspector.StimRowsFailIff`).
- Select changes skip the ownership check. For a slider's `style` they write
  the option text in a one-element array, not the style symbol
  (`RoundTrip.SliderStyleRoundTrip`).
- Typing "null" into a text input turns the attribute into `null`. The next
  display shows it as the disabled "Object field" placeholder
  (`RoundTrip.TextRoundTrip`).

## Model

| member | source | states |
|---|---|---|
| `Classifier.StepFor` | StimInspector.js:27-49 | step is .01 exactly for phase, contrast and opacity, .1 exactly for ori, pos, size and volume, and 1 for every other name |
| `Classifier.ElementInputs` | StimInspector.js:277-284 | the per-element loop produces exactly one input per element (contents in `ElementInputsAt`) |
| `Classifier.ElementInputsAt` | StimInspector.js:272-284 | input i shows element i, carries index i, is a text input exactly when the element is a string (number otherwise) and has the name's step |
| `Classifier.SelectOptions` | StimInspector.js:308-312 | one option per table entry (contents in `SelectOptionsAt`) |
| `Classifier.SelectOptionsAt` | StimInspector.js:302-315 | option k shows entry k (its text, or `Symbol.keyFor` of a symbol) and is selected exactly when the entry is strictly equal to the chosen value |
| `Classifier.AtMostOneSelected` | StimInspector.js:308-312 | with a table of distinct entries no two options are selected |
| `Classifier.UnitsSelect` | StimInspector.js:262-263 | `units` always gets a select listing pix, norm and height in that order; option k is selected exactly when the value is that string; at most one is |
| `Classifier.StyleSelect` | StimInspector.js:317-332 | a `style` array with a symbol first gives, on a slider, the style table with `value[0]` selected, and on any other stimulus an empty select |
| `Classifier.SelectIff` | StimInspector.js:262-268 | a select arises exactly for `units` or a non-empty array whose first element is a symbol; names other than `units` and `style` get no options |
| `Classifier.PrimitiveArrayInputs` | StimInspector.js:264-285 | under a name other than `units`, a non-empty array whose first element is neither a symbol nor an object gets one enabled input per element, in order, with index, type and step as above |
| `Classifier.ElementInputsEnabled` | StimInspector.js:283 | per-element inputs are never disabled |
| `Classifier.DisabledIff` | StimInspector.js:264-298 | under a name other than `units`, a disabled placeholder appears exactly for an empty array, an array whose first element is an object (null included), null or another object; undefined gets an enabled text input showing "undefined" |
| `Classifier.NoInputIff` | StimInspector.js:256-300 | no input at all is produced exactly for a symbol or a function under a name other than `units` |
| `Classifier.RendersIff` | StimInspector.js:272-284 | under a name other than `units`, building the markup throws exactly for a primitive array (judged by its first element) that has, at a later index, a symbol or an array reaching a symbol through nested arrays (its `join` converts the symbol) |
| `Classifier.StyleValues` | StimInspector.js:325 | the slider style table is a table of symbols the options loop accepts, with two entries strictly equal exactly when their keys are |
| `Classifier.StyleAtMostOneSelected` | StimInspector.js:322-331 | on a slider with distinct style keys, no two style options are selected |
| `Classifier.ConstructSelectFromObject` | StimInspector.js:302-315 | the options loop yields exactly `SelectOptions` of the table |
| `Classifier.ConstructSelectForAttr` | StimInspector.js:317-332 | yields the style table (slider only), the units table, or nothing, as `SelectForAttr` |
| `Classifier.ConstructInputForAttr` | StimInspector.js:256-300 | yields the widget `AttrWidget` of the name and value, or `None` exactly when the per-element loop meets an element whose string conversion throws (a symbol, or an array reaching one) |
| `Editor.ArrayFrom` | StimInspector.js:464 | `Array.from` throws a TypeError exactly for undefined and null, copies an array's elements and splits a string into characters |
| `Editor.SetAt` | StimInspector.js:465 | the copy holds the new value at the index, keeps every other old element, and grows with undefined slots when the index is past the end |
| `Editor.SentinelsOnlyFromText` | StimInspector.js:447-461 | the coerced value is undefined (null) exactly when a text input carries "undefined" ("null"); no input type yields those texts as strings |
| `Editor.CoerceFailsIff` | StimInspector.js:447-455 | coercion fails only when the Color constructor rejects a colour input's text; a number input always yields `parseFloat` of its text |
| `Editor.WriteOnlyIfOwned` | StimInspector.js:462-470 | nothing is written unless the stimulus owns the property; an unowned edit is a quiet success unless coercion failed |
| `Editor.ScalarEdit` | StimInspector.js:467-468 | an edit without an index of an owned property writes the coerced value, or fails with the setter's exception |
| `Editor.IndexedEditIsLocal` | StimInspector.js:463-466 | an indexed edit of an owned array writes a same-length copy equal to the old array except at the index, which holds the coerced value |
| `Editor.FailedIff` | StimInspector.js:446-476 | the catch is reached exactly for a rejected colour, an indexed edit of an owned undefined or null property, or a setter that throws on the value to be written |
| `Editor.SentinelEdits` | StimInspector.js:456-461 | typing "undefined" or "null" into a text input sets an owned attribute to undefined or null |
| `Editor.BadNumberWritesNaN` | StimInspector.js:449-450 | for any owned attribute, text `parseFloat` cannot read writes NaN; it is not an error |
| `Editor.PosElementEdit` | StimInspector.js:463-466 | editing index 1 of `pos = [100, 200]` with "250" writes `[100, 250]` |
| `Editor.SelectChangeValues` | StimInspector.js:480-489 | a select writes `[text]` for `style` on a slider, nothing for `style` elsewhere, and the text for any other name |
| `Editor.CatchBlockLosesNativeErrors` | StimInspector.js:473-476 | as written, a failed indexed edit of an undefined attribute leaves its input unmarked |
| `Stimuli.Stimulus.Assign` | StimInspector.js:468 | an assignment through the setter either stores the value (creating the property) or throws and stores nothing |
| `Scene.TopmostHit` | StimInspector.js:403-414 | the result is a hit child and no child above it is hit; there is no result exactly when no child is hit |
| `Scene.HitIsTopmost` | StimInspector.js:403-414 | the highest-index child that passes either test is the one clicked |
| `Scene.FindClickedPixi` | StimInspector.js:403-414 | the reverse scan with early exit returns the renderable of `TopmostHit`, and returns one exactly when some child is hit |
| `Scene.OwnerFrom` | StimInspector.js:416-421 | the result is the first draw-list entry at or after `from` whose `_pixi` equals the hit (undefined equal to undefined); none exactly when no entry from `from` on matches. `Owner` makes the call with `from = 0` |
| `Scene.FindClickedStim` | StimInspector.js:416-421 | the forward scan with early exit returns `Owner`, a draw-list member drawn by the hit |
| `Scene.MissMatchesPixiless` | StimInspector.js:416-418 | a click over no child selects the first draw-list entry without a renderable |
| `Inspector.IndexOf` | StimInspector.js:357 | `indexOf` is -1 exactly when the text does not occur, and otherwise the first position (in characters) where it occurs |
| `Inspector.IndexOfFrom` | StimInspector.js:357 | the first occurrence at or after a position, or -1 when there is none |
| `Inspector.FilteredRows` | StimInspector.js:353-363 | filtering keeps each row's name and widget and hides it exactly when its name does not contain the filter text |
| `Inspector.EmptyFilterShowsAll` | StimInspector.js:353 | the empty filter hides no row |
| `Inspector.DisplayedRows` | StimInspector.js:339-346 | a displayed panel has one row per user attribute in declared order, each with the widget of the attribute's current value and hidden by the filter rule |
| `Inspector.StimRowsFailIff` | StimInspector.js:334-351 | building the rows throws exactly when some user attribute other than `units` is a primitive array with, at a later index, a symbol or an array reaching one |
| `Inspector.NestedSymbolBlocksRows` | StimInspector.js:272-284 | `x = [1, [Symbol.for("a")]]` takes the per-element branch, cannot be rendered, and no rows are built |
| `Inspector.StimInspector.constructor` | StimInspector.js:12-25 | a new inspector inspects nothing and has no rows, no errors and an empty filter |
| `Inspector.StimInspector.ConstructStimRows` | StimInspector.js:334-351 | the loop over `_userAttributes` yields exactly `StimRows` |
| `Inspector.StimInspector.FilterAttrs` | StimInspector.js:353-363 | the loop keeps the number of rows and leaves them equal to `Filtered` of the old rows |
| `Inspector.StimInspector.OnFilterInput` | StimInspector.js:432-434 | the filter text is stored and the rows are filtered by it |
| `Inspector.StimInspector.DisplayStimData` | StimInspector.js:529-535 | the stimulus becomes the inspected one; its rows, filtered by the current text, replace the panel's, or the old rows stay when building throws |
| `Inspector.StimInspector.OnWindowClick` | StimInspector.js:396-426 | the stimulus owning the topmost hit is displayed; with no owner nothing changes |
| `Inspector.StimInspector.OnAttrInputChange` | StimInspector.js:442-478 | an input event (only enabled inputs fire one) changes the owned property as `InputChange` says and no other; this is the corrected handler, in which the input is marked errored exactly when the edit failed (the mark the code as written sets is `Editor.ErrorFlagAsWritten`, see "## Findings") |
| `Inspector.StimInspector.OnAttrSelectChange` | StimInspector.js:480-489 | the property changes as `SelectChange` says, without an ownership check, unless the setter throws |
| `Inspector.StimInspector.OnTriggerRefreshClick` | StimInspector.js:388-394 | an inspected stimulus gets both re-render flags set and nothing else changes |
| `RoundTrip.CheckboxRoundTrip` | StimInspector.js:447-448 | toggling a checkbox writes the boolean, and the next display shows the checkbox in that state |
| `RoundTrip.NumberRoundTrip` | StimInspector.js:449-450 | a number input writes `parseFloat` of its text, and the next display shows that number with the name's step |
| `RoundTrip.TextRoundTrip` | StimInspector.js:453-461 | typed text comes back as a text input showing it, except "null", which comes back as the disabled "Object field" |
| `RoundTrip.ColorRoundTrip` | StimInspector.js:451-452 | a colour the Color constructor accepts is written as a Color, and the next display shows a colour input holding its hex value |
| `RoundTrip.ElementEditRoundTrip` | StimInspector.js:463-466 | for an in-range index of an owned primitive array, where the value written at index 0 is not an object, the next display changes only that element's input |
| `RoundTrip.ElementZeroDecidesArray` | StimInspector.js:264-270 | an edit that writes an object (null, or a Color) at index 0 of a primitive array makes the next display the single "Array of Objects" placeholder, since only the first element decides the array's sub-case |
| `RoundTrip.NullFirstElementHidesArray` | StimInspector.js:463-466 | typing "null" into element 0 of `["a", "b"]` writes `[null, "b"]`, which redisplays as the "Array of Objects" placeholder |
| `RoundTrip.UnitsSelectRoundTrip` | StimInspector.js:486-488 | choosing a unit writes its text, and the next display selects exactly that unit |
| `RoundTrip.SliderStyleRoundTrip` | StimInspector.js:482-485 | choosing a slider style writes `[text]`, which the next display shows as a text input rather than a select |

## Findings

| source | as written | input that shows it | evidently intended | confidence | as-written member | corrected member |
|---|---|---|---|---|---|---|
| StimInspector.js:473-476 | the catch block reads `err.error.error` before it adds the `error` class. For an exception with no `error` property, such as a native TypeError, the catch block itself throws and the input is left unmarked | an indexed edit (`data-idx` 0) of own attribute `pos` after `pos` has become `undefined`. `Array.from(undefined)` throws a TypeError | every failed edit marks its input errored | not executed; medium | `Editor.CatchBlockLosesNativeErrors` (on `Editor.ErrorFlagAsWritten`) | `Inspector.StimInspector.OnAttrInputChange` |

## Left out

- HTML and CSS text, markup escaping, `_constructHTML` and `_injectStyles` (StimInspector.js:61-254). Widgets are descriptions rather than strings.
- DOM querying, `insertAdjacentHTML` and listener wiring (`_init`, `_addEventListeners`, `_addEventListenersForStim`). These are browser I/O.
- `_addEventListenersForStim` also attaches the attribute-input handler to the filter box. A keystroke there runs the handler with the name `undefined`, which writes only to a stimulus owning a property called "undefined". The model does not include this.
- Panel chrome: dragging (`_onMouseDown`, `_onMouseUp`, `_onMouseMove`, whose clamp works on floating-point pixels), `_onMinimizeClick`, `_onInspectorMouseWheel`, `_onFilterKeydown`, and `console.log`.
- The constructor's checks that a window and a library are passed, and their thrown strings.
- Renderer arithmetic. `worldTransform.applyInverse`, `getLocalBounds().contains` and `containsPoint` are foreign calls. The model takes their results per child and per click.
- The implementations of `parseFloat` and the Color constructor. They are abstract functions of `Editor.Library`.
- Property setters only accept and store the value as given, or throw and store nothing. Setters that convert the value, or that change state before throwing, are not modelled.
- The error message written to the input's `title` (StimInspector.js:471, 474). Only the error mark is modelled.
- Double-precision rounding. Finite numbers are reals.
- Unregistered symbols, for which `Symbol.keyFor` gives undefined. Every symbol here is `Symbol.for(key)`.
- Inherited properties. A non-own property reads as undefined. A step-table lookup of an inherited name such as `constructor` is not modelled.
- `Array.from` of objects or functions that have a `length` or an iterator. These are modelled as giving an empty array.
- How shown values are turned into attribute text. An input records the value it shows.
- Exceptions that escape a handler, such as a setter throwing on a select change. They are modelled as the handler's result, with the state left as it was at the throw.
- Inspector.IndexOf: counts positions in characters, whereas JavaScript's `indexOf` counts UTF-16 code units, so a position after an astral character differs. Line 357 only compares the result with -1, where the two agree.

=== FILE: classifier.dfy ===
/** Attribute classification: how the inspector turns one attribute's current
    value into an editable widget (`_construcInputHTMLForAttr`,
    `_constructSelectHTMLForAttr`, `_constructSelectHTMLFromObject`). The HTML
    markup is replaced by a widget description. */
module Classifier {
  import opened Values

  /** Input step of attributes measured in fractional units; every other
      attribute steps by 1 (#FIELDS_WITH_FLOAT_DATA_TYPE). */
  const FloatSteps: map<string, real> := map[
    "phase" := 0.01, "contrast" := 0.01, "opacity" := 0.01,
    "ori" := 0.1, "pos" := 0.1, "size" := 0.1, "volume" := 0.1]

  /** The units vocabulary, in declaration order (#UNITS). */
  const Units: seq<string> := ["pix", "norm", "height"]

  function StepFor(name: string): (step: real)
    ensures step == 0.01 <==> name in {"phase", "contrast", "opacity"}
    ensures step == 0.1 <==> name in {"ori", "pos", "size", "volume"}
    ensures step == 1.0 <==> name !in FloatSteps
  {
    if name in FloatSteps then FloatSteps[name] else 1.0
  }

  /** The `type` of an `<input>` element. */
  datatype InputKind = TextInput | NumberInput | CheckboxInput | ColorInput

  /** One `<input>`: its type, whether it is disabled, the value it shows
      (the checked state for a checkbox, the hex text for a colour), the array
      index it edits (`data-idx`) and its `step`. */
  datatype Input = Input(kind: InputKind, disabled: bool, shown: Value,
                         idx: Option<nat>, step: Option<real>)

  /** One `<option>` of a `<select>`: its text and whether it is selected. */
  datatype SelectOption = SelectOption(text: string, selected: bool)

  /** The editing widget of one attribute: a run of inputs (possibly none) or
      a select. */
  datatype Widget = Inputs(inputs: seq<Input>) | Select(options: seq<SelectOption>)

  /** A disabled text input showing a fixed label. */
  function Placeholder(caption: string): Input {
    Input(TextInput, true, Str(caption), None, None)
  }

  /** The input for element `i` of an array attribute. */
  function ElementInput(name: string, e: Value, i: nat): Input {
    Input(if e.Str? then TextInput else NumberInput, false, e, Some(i), Some(StepFor(name)))
  }

  /** The inputs of an array attribute, accumulated element by element. */
  function ElementInputs(name: string, es: seq<Value>): (ins: seq<Input>)
    ensures |ins| == |es|
  {
    if es == [] then []
    else ElementInputs(name, es[..|es| - 1]) + [ElementInput(name, es[|es| - 1], |es| - 1)]
  }

  /** The text of an option: the string itself, or `Symbol.keyFor` of a symbol. */
  function OptionLabel(o: Value): string
    requires o.Str? || o.Sym?
  {
    if o.Sym? then o.key else o.s
  }

  predicate IsOptionTable(opts: seq<Value>) {
    forall o <- opts :: o.Str? || o.Sym?
  }

  /** The options built from a table, accumulated entry by entry; an entry is
      selected when it is strictly equal to `chosen`. */
  function SelectOptions(chosen: Value, opts: seq<Value>): (options: seq<SelectOption>)
    requires IsOptionTable(opts)
    ensures |options| == |opts|
  {
    if opts == [] then []
    else
      var last := opts[|opts| - 1];
      SelectOptions(chosen, opts[..|opts| - 1]) + [SelectOption(OptionLabel(last), last == chosen)]
  }

  const UnitValues: seq<Value> := [Str("pix"), Str("norm"), Str("height")]

  /** The values of the slider style table, each a registered symbol: a table
      the options loop accepts, in which two entries are strictly equal
      exactly when their keys are. */
  function StyleValues(styles: seq<string>): (vs: seq<Value>)
    ensures |vs| == |styles| && IsOptionTable(vs)
    ensures forall a, b :: 0 <= a < |styles| && 0 <= b < |styles| ==>
              (vs[a] == vs[b] <==> styles[a] == styles[b])
  {
    seq(|styles|, k requires 0 <= k < |styles| => Sym(styles[k]))
  }

  /** The options of the select built for `name`: the slider style table for
      `style` on a slider (chosen value `value[0]`), the units table for
      `units` (chosen value `value`), and nothing otherwise. */
  function SelectForAttr(name: string, value: Value, isSlider: bool, styles: seq<string>): seq<SelectOption> {
    if name == "style" then
      if isSlider then SelectOptions(Index0(value), StyleValues(styles)) else []
    else if name == "units" then SelectOptions(value, UnitValues)
    else []
  }

  /** The widget for attribute `name` holding `v`, by first match: the name
      `units`, then arrays (empty, symbol first, object first, otherwise one
      input per element), Color, boolean, number, string, other object
      (including null), undefined. Symbols and functions get no input. */
  function AttrWidget(name: string, v: Value, isSlider: bool, styles: seq<string>): Widget {
    if name == "units" then Select(SelectForAttr(name, v, isSlider, styles))
    else match v
      case Arr(es) =>
        if |es| == 0 then Inputs([Placeholder("Empty Array")])
        else if es[0].Sym? then Select(SelectForAttr(name, v, isSlider, styles))
        else if IsObjectType(es[0]) then Inputs([Placeholder("Array of Objects")])
        else Inputs(ElementInputs(name, es))
      case Color(hex) => Inputs([Input(ColorInput, false, Str(hex), None, None)])
      case Bool(b) => Inputs([Input(CheckboxInput, false, Bool(b), None, None)])
      case Num(n) => Inputs([Input(NumberInput, false, Num(n), None, Some(StepFor(name)))])
      case Str(s) => Inputs([Input(TextInput, false, Str(s), None, None)])
      case Obj => Inputs([Placeholder("Object field")])
      case Null => Inputs([Placeholder("Object field")])
      case Undef => Inputs([Input(TextInput, false, Str("undefined"), None, None)])
      case Sym(_) => Inputs([])
      case Func => Inputs([])
  }

  /** The widget's markup can be produced: no input shows a symbol, since
      interpolating a symbol into a template string throws a TypeError. */
  predicate Renders(w: Widget) {
    w.Inputs? ==> forall k :: 0 <= k < |w.inputs| ==> !HasSym(w.inputs[k].shown)
  }

  predicate HasDisabled(w: Widget) {
    w.Inputs? && exists k :: 0 <= k < |w.inputs| && w.inputs[k].disabled
  }

  /** An array whose first element decides that it gets one input per element. */
  predicate IsPrimitiveArray(v: Value) {
    v.Arr? && |v.elems| > 0 && !v.elems[0].Sym? && !IsObjectType(v.elems[0])
  }

  // ---------------------------------------------------------------------------
  // Properties of the specification functions

  /** One input per element, in order: input i edits index i, is a text input
      exactly when the element is a string, and carries the name's step. */
  lemma {:induction false} ElementInputsAt(name: string, es: seq<Value>)
    ensures |ElementInputs(name, es)| == |es|
    ensures forall i :: 0 <= i < |es| ==> ElementInputs(name, es)[i] == ElementInput(name, es[i], i)
  {
    if es != [] {
      ElementInputsAt(name, es[..|es| - 1]);
    }
  }

  /** Option k shows entry k of the table, and is selected exactly when that
      entry is strictly equal to the chosen value. */
  lemma {:induction false} SelectOptionsAt(chosen: Value, opts: seq<Value>)
    requires IsOptionTable(opts)
    ensures |SelectOptions(chosen, opts)| == |opts|
    ensures forall k :: 0 <= k < |opts| ==>
              SelectOptions(chosen, opts)[k] == SelectOption(OptionLabel(opts[k]), opts[k] == chosen)
  {
    if opts != [] {
      SelectOptionsAt(chosen, opts[..|opts| - 1]);
    }
  }

  /** When the table has no repeated entry, at most one option is selected. */
  lemma AtMostOneSelected(chosen: Value, opts: seq<Value>, i: nat, j: nat)
    requires IsOptionTable(opts)
    requires forall a, b :: 0 <= a < b < |opts| ==> opts[a] != opts[b]
    requires i < j < |opts|
    ensures !(SelectOptions(chosen, opts)[i].selected && SelectOptions(chosen, opts)[j].selected)
  {
    SelectOptionsAt(chosen, opts);
  }

  /** `units` always gets a select listing pix, norm and height, in that order,
      whatever its value; an option is selected exactly when the value is that
      string, and at most one is. */
  lemma UnitsSelect(v: Value, isSlider: bool, styles: seq<string>)
    ensures AttrWidget("units", v, isSlider, styles).Select?
    ensures var opts := AttrWidget("units", v, isSlider, styles).options;
            |opts| == 3 &&
            (forall k :: 0 <= k < 3 ==> opts[k].text == Units[k] && (opts[k].selected <==> v == Str(Units[k]))) &&
            (forall i, j :: 0 <= i < j < 3 ==> !(opts[i].selected && opts[j].selected))
  {
    SelectOptionsAt(v, UnitValues);
  }

  /** An array attribute named `style` whose first element is a symbol: on a
      slider the select lists the style table with `value[0]` selected; on any
      other stimulus the select is empty. */
  lemma StyleSelect(es: seq<Value>, isSlider: bool, styles: seq<string>)
    requires |es| > 0 && es[0].Sym?
    ensures AttrWidget("style", Arr(es), isSlider, styles).Select?
    ensures var opts := AttrWidget("style", Arr(es), isSlider, styles).options;
            if isSlider then
              |opts| == |styles| &&
              forall k :: 0 <= k < |styles| ==>
                opts[k].text == styles[k] && (opts[k].selected <==> es[0] == Sym(styles[k]))
            else opts == []
  {
    if isSlider {
      SelectOptionsAt(es[0], StyleValues(styles));
    }
  }

  /** On a slider whose style keys are distinct, at most one style option is
      selected, whatever `value[0]` is. */
  lemma StyleAtMostOneSelected(es: seq<Value>, styles: seq<string>, i: nat, j: nat)
    requires |es| > 0 && es[0].Sym?
    requires forall a, b :: 0 <= a < b < |styles| ==> styles[a] != styles[b]
    requires i < j < |styles|
    ensures var opts := AttrWidget("style", Arr(es), true, styles).options;
            !(opts[i].selected && opts[j].selected)
  {
    var vs := StyleValues(styles);
    assert forall a, b :: 0 <= a < b < |vs| ==> vs[a] != vs[b];
    AtMostOneSelected(es[0], vs, i, j);
  }

  /** A select arises exactly for `units` or for a non-empty array whose first
      element is a symbol; for any name other than `units` and `style` its
      option list is empty. */
  lemma SelectIff(name: string, v: Value, isSlider: bool, styles: seq<string>)
    ensures AttrWidget(name, v, isSlider, styles).Select? <==>
            name == "units" || (v.Arr? && |v.elems| > 0 && v.elems[0].Sym?)
    ensures name != "units" && name != "style" && AttrWidget(name, v, isSlider, styles).Select? ==>
            AttrWidget(name, v, isSlider, styles).options == []
  {
  }

  /** Per-element inputs arise exactly for a primitive array under a name other
      than `units`: one enabled input per element, in order, input i carrying
      index i, text type exactly for strings, and the name's step. */
  lemma PrimitiveArrayInputs(name: string, v: Value, isSlider: bool, styles: seq<string>)
    requires name != "units" && IsPrimitiveArray(v)
    ensures var w := AttrWidget(name, v, isSlider, styles);
            w.Inputs? && |w.inputs| == |v.elems| &&
            forall i :: 0 <= i < |v.elems| ==>
              && w.inputs[i].idx == Some(i)
              && w.inputs[i].shown == v.elems[i]
              && !w.inputs[i].disabled
              && (w.inputs[i].kind == TextInput <==> v.elems[i].Str?)
              && (w.inputs[i].kind == NumberInput <==> !v.elems[i].Str?)
              && w.inputs[i].step == Some(StepFor(name))
  {
    ElementInputsAt(name, v.elems);
  }

  /** Element inputs are never disabled. */
  lemma ElementInputsEnabled(name: string, es: seq<Value>)
    ensures forall i :: 0 <= i < |ElementInputs(name, es)| ==> !ElementInputs(name, es)[i].disabled
  {
  }

  /** A disabled placeholder appears exactly for an empty array, an array whose
      first element is an object (null included), null, or another plain
      object; `undefined` gets an enabled text input showing "undefined". */
  lemma DisabledIff(name: string, v: Value, isSlider: bool, styles: seq<string>)
    ensures HasDisabled(AttrWidget(name, v, isSlider, styles)) <==>
            name != "units" &&
            (v == Arr([]) || (v.Arr? && |v.elems| > 0 && !v.elems[0].Sym? && IsObjectType(v.elems[0]))
             || v.Null? || v.Obj?)
    ensures name != "units" && v.Undef? ==>
            AttrWidget(name, v, isSlider, styles) == Inputs([Input(TextInput, false, Str("undefined"), None, None)])
  {
    var w := AttrWidget(name, v, isSlider, styles);
    if name != "units" && IsPrimitiveArray(v) {
      ElementInputsEnabled(name, v.elems);
    } else if w.Inputs? && |w.inputs| == 1 {
      assert HasDisabled(w) <==> w.inputs[0].disabled;
    }
  }

  /** No input at all is produced exactly for a symbol or a function under a
      name other than `units`. */
  lemma NoInputIff(name: string, v: Value, isSlider: bool, styles: seq<string>)
    ensures AttrWidget(name, v, isSlider, styles) == Inputs([]) <==>
            name != "units" && (v.Sym? || v.Func?)
  {
  }

  /** Building the markup fails exactly for a primitive array (as decided by
      its first element) with, at some later position, a symbol or an array
      whose string conversion meets one. */
  lemma RendersIff(name: string, v: Value, isSlider: bool, styles: seq<string>)
    ensures !Renders(AttrWidget(name, v, isSlider, styles)) <==>
            name != "units" && IsPrimitiveArray(v) &&
            exists k :: 0 < k < |v.elems| && HasSym(v.elems[k])
  {
    if name != "units" && IsPrimitiveArray(v) {
      ElementInputsAt(name, v.elems);
      var w := AttrWidget(name, v, isSlider, styles);
      if !Renders(w) {
        var k :| 0 <= k < |w.inputs| && HasSym(w.inputs[k].shown);
        assert HasSym(v.elems[k]) && 0 < k;
      }
    }
  }

  // ---------------------------------------------------------------------------
  // The operations as the source runs them

  /** `_constructSelectHTMLFromObject`: one option per table entry, in order. */
  method ConstructSelectFromObject(chosen: Value, opts: seq<Value>) returns (options: seq<SelectOption>)
    requires IsOptionTable(opts)
    ensures options == SelectOptions(chosen, opts)
  {
    options := [];
    var i := 0;
    while i < |opts|
      invariant 0 <= i <= |opts|
      invariant options == SelectOptions(chosen, opts[..i])
    {
      assert opts[..i + 1][..i] == opts[..i];
      options := options + [SelectOption(OptionLabel(opts[i]), opts[i] == chosen)];
      i := i + 1;
    }
    assert opts[..i] == opts;
  }

  /** `_constructSelectHTMLForAttr`. */
  method ConstructSelectForAttr(name: string, value: Value, isSlider: bool, styles: seq<string>)
    returns (options: seq<SelectOption>)
    ensures options == SelectForAttr(name, value, isSlider, styles)
  {
    var chosen: Value := Str("");
    var opts: seq<Value> := [];
    if name == "style" {
      if isSlider {
        chosen := Index0(value);
        opts := StyleValues(styles);
      }
    } else if name == "units" {
      chosen := value;
      opts := UnitValues;
    }
    options := ConstructSelectFromObject(chosen, opts);
  }

  /** `_construcInputHTMLForAttr`: the widget of `AttrWidget`, or `None` when
      building its markup throws (a symbol met in the per-element loop). */
  method ConstructInputForAttr(name: string, v: Value, isSlider: bool, styles: seq<string>)
    returns (r: Option<Widget>)
    ensures r == if Renders(AttrWidget(name, v, isSlider, styles))
                 then Some(AttrWidget(name, v, isSlider, styles)) else None
  {
    var step := if name in FloatSteps then FloatSteps[name] else 1.0;
    if name == "units" {
      var options := ConstructSelectForAttr(name, v, isSlider, styles);
      return Some(Select(options));
    }
    match v {
      case Arr(es) =>
        if |es| == 0 {
          return Some(Inputs([Placeholder("Empty Array")]));
        } else if es[0].Sym? {
          var options := ConstructSelectForAttr(name, v, isSlider, styles);
          return Some(Select(options));
        } else if IsObjectType(es[0]) {
          return Some(Inputs([Placeholder("Array of Objects")]));
        }
        ElementInputsAt(name, es);
        var inputs: seq<Input> := [];
        var i := 0;
        while i < |es|
          invariant 0 <= i <= |es|
          invariant inputs == ElementInputs(name, es[..i])
          invariant forall j :: 0 <= j < i ==> !HasSym(es[j])
        {
          if HasSym(es[i]) {
            // `${symbol}`, or `${array}` whose join meets a symbol, throws a TypeError
            return None;
          }
          assert es[..i + 1][..i] == es[..i];
          inputs := inputs + [Input(if es[i].Str? then TextInput else NumberInput, false, es[i], Some(i), Some(step))];
          i := i + 1;
        }
        assert es[..i] == es;
        return Some(Inputs(inputs));
      case Color(hex) => return Some(Inputs([Input(ColorInput, false, Str(hex), None, None)]));
      case Bool(b) => return Some(Inputs([Input(CheckboxInput, false, Bool(b), None, None)]));
      case Num(n) => return Some(Inputs([Input(NumberInput, false, Num(n), None, Some(step))]));
      case Str(s) => return Some(Inputs([Input(TextInput, false, Str(s), None, None)]));
      case Obj => return Some(Inputs([Placeholder("Object field")]));
      case Null => return Some(Inputs([Placeholder("Object field")]));
      case Undef => return Some(Inputs([Input(TextInput, false, Str("undefined"), None, None)]));
      case Sym(_) => return Some(Inputs([]));
      case Func => return Some(Inputs([]));
    }
  }
}

=== FILE: editor.dfy ===
/** Edit application: what an edit of one input or select does to the
    inspected stimulus's own properties (`_onAttrInputChange`,
    `_onAttrSelectChange`), as pure functions of the old properties. */
module Editor {
  import opened Values
  import opened Classifier

  /** The parts of the stimulus library the editor calls: the slider style
      table (`Slider.Style`, as the keys of its registered symbols, in
      enumeration order), `parseFloat`, and the Color constructor, which
      either yields a colour (its hex text) or throws. */
  datatype Library = Library(
    sliderStyles: seq<string>,
    parseFloat: string -> Number,
    newColor: string -> Result<string>)

  /** One input event: the input's `data-name`, type and `data-idx`, and what
      the user entered (its `value` and, for a checkbox, `checked`). */
  datatype EditRequest = EditRequest(name: string, kind: InputKind, idx: Option<nat>,
                                     text: string, checked: bool)

  /** What an input event does to the stimulus: no write, a write of one
      attribute, or an exception caught by the handler. */
  datatype EditResult = NoWrite | Write(value: Value) | Failed(exc: Exception)

  /** The reserved texts: "undefined" and "null" stand for those values. */
  function Unsentinel(v: Value): Value {
    if v == Str("undefined") then Undef
    else if v == Str("null") then Null
    else v
  }

  /** The value an input event carries, chosen by the input's type: a
      checkbox's checked state, `parseFloat` of a number input's text (which
      never throws: bad text gives NaN), a new Color for a colour input, and
      the raw text otherwise; then the reserved texts are mapped. */
  function Coerce(lib: Library, kind: InputKind, text: string, checked: bool): Result<Value> {
    var raw: Result<Value> :=
      match kind
      case CheckboxInput => Ok(Bool(checked))
      case NumberInput => Ok(Num(lib.parseFloat(text)))
      case ColorInput => (match lib.newColor(text) case Ok(hex) => Ok(Color(hex)) case Throw(e) => Throw(e))
      case TextInput => Ok(Str(text));
    match raw
    case Ok(v) => Ok(Unsentinel(v))
    case Throw(e) => Throw(e)
  }

  /** `Array.from(v)`: an array's elements, a string's characters, and no
      elements for other values without a length; `undefined` and `null`
      throw a TypeError. */
  function ArrayFrom(v: Value): (r: Result<seq<Value>>)
    ensures r.Throw? <==> v.Undef? || v.Null?
    ensures r.Throw? ==> r.exc == NativeTypeError
    ensures v.Arr? ==> r == Ok(v.elems)
    ensures v.Str? ==> r.Ok? && |r.value| == |v.s| &&
                       forall i :: 0 <= i < |v.s| ==> r.value[i] == Str([v.s[i]])
  {
    match v
    case Arr(es) => Ok(es)
    case Str(s) => Ok(seq(|s|, i requires 0 <= i < |s| => Str([s[i]])))
    case Undef => Throw(NativeTypeError)
    case Null => Throw(NativeTypeError)
    case _ => Ok([])
  }

  /** `a[k] = x` on an array copy: a slot past the end grows the array, the
      skipped slots reading as `undefined`. */
  function SetAt(es: seq<Value>, k: nat, x: Value): (r: seq<Value>)
    ensures |r| == if k < |es| then |es| else k + 1
    ensures r[k] == x
    ensures forall j :: 0 <= j < |es| && j != k ==> r[j] == es[j]
    ensures forall j :: |es| <= j < k ==> r[j] == Undef
  {
    if k < |es| then es[k := x]
    else es + seq(k - |es|, _ => Undef) + [x]
  }

  /** Assignment through a property setter, which may throw. */
  function Store(setterThrows: (string, Value) -> Option<Exception>, name: string, v: Value): EditResult {
    match setterThrows(name, v)
    case Some(e) => Failed(e)
    case None => Write(v)
  }

  /** The effect of an input event on a stimulus whose own properties are
      `props`: coerce first, then write only an own property, an indexed edit
      writing a fresh copy of the array with one slot replaced. */
  function InputChange(lib: Library, props: map<string, Value>,
                       setterThrows: (string, Value) -> Option<Exception>,
                       req: EditRequest): EditResult
  {
    match Coerce(lib, req.kind, req.text, req.checked)
    case Throw(e) => Failed(e)
    case Ok(v) =>
      if req.name !in props then NoWrite
      else match req.idx
        case None => Store(setterThrows, req.name, v)
        case Some(k) =>
          match ArrayFrom(props[req.name])
          case Throw(e) => Failed(e)
          case Ok(es) => Store(setterThrows, req.name, Arr(SetAt(es, k, v)))
  }

  /** The value a select change assigns to attribute `name`: `[text]` for
      `style` on a slider, nothing for `style` on anything else, and the text
      itself for every other name, owned or not. */
  function SelectChange(name: string, isSlider: bool, text: string): Option<Value> {
    if name == "style" then
      if isSlider then Some(Arr([Str(text)])) else None
    else Some(Str(text))
  }

  /** Whether the input carries the error class after the handler, AS WRITTEN:
      the catch block reads `err.error.error` before marking the input, so an
      exception without an `error` property makes the catch block itself
      throw and the input keeps its previous state. */
  function ErrorFlagAsWritten(was: bool, r: EditResult): bool {
    match r
    case Failed(e) => if e.carriesError then true else was
    case _ => false
  }

  // ---------------------------------------------------------------------------
  // Properties

  /** The reserved values arise only from text inputs carrying exactly
      "undefined" or "null"; no input type ever yields those texts themselves. */
  lemma SentinelsOnlyFromText(lib: Library, kind: InputKind, text: string, checked: bool)
    ensures Coerce(lib, kind, text, checked) == Ok(Undef) <==> kind == TextInput && text == "undefined"
    ensures Coerce(lib, kind, text, checked) == Ok(Null) <==> kind == TextInput && text == "null"
    ensures Coerce(lib, kind, text, checked) != Ok(Str("undefined"))
    ensures Coerce(lib, kind, text, checked) != Ok(Str("null"))
  {
  }

  /** Coercion fails only for a colour input whose text the Color constructor
      rejects; a number input never fails, whatever its text. */
  lemma CoerceFailsIff(lib: Library, kind: InputKind, text: string, checked: bool)
    ensures Coerce(lib, kind, text, checked).Throw? <==> kind == ColorInput && lib.newColor(text).Throw?
    ensures kind == NumberInput ==> Coerce(lib, kind, text, checked) == Ok(Num(lib.parseFloat(text)))
  {
  }

  /** Nothing is written to a property the stimulus does not own; an edit of an
      unowned property is a quiet success unless coercion itself failed. */
  lemma WriteOnlyIfOwned(lib: Library, props: map<string, Value>,
                         setterThrows: (string, Value) -> Option<Exception>, req: EditRequest)
    ensures InputChange(lib, props, setterThrows, req).Write? ==> req.name in props
    ensures InputChange(lib, props, setterThrows, req) == NoWrite <==>
            req.name !in props && Coerce(lib, req.kind, req.text, req.checked).Ok?
  {
  }

  /** An edit without an index of an owned property writes the coerced value
      itself, unless the setter throws. */
  lemma ScalarEdit(lib: Library, props: map<string, Value>,
                   setterThrows: (string, Value) -> Option<Exception>, req: EditRequest)
    requires req.name in props && req.idx.None?
    requires Coerce(lib, req.kind, req.text, req.checked).Ok?
    ensures var v := Coerce(lib, req.kind, req.text, req.checked).value;
            InputChange(lib, props, setterThrows, req) ==
              if setterThrows(req.name, v).Some? then Failed(setterThrows(req.name, v).value) else Write(v)
  {
  }

  /** An indexed edit of an owned array writes a copy of the same length that
      differs from the old array at most at the edited slot, which holds the
      coerced value. */
  lemma IndexedEditIsLocal(lib: Library, props: map<string, Value>,
                           setterThrows: (string, Value) -> Option<Exception>, req: EditRequest)
    requires req.name in props && props[req.name].Arr? && req.idx.Some?
    requires req.idx.value < |props[req.name].elems|
    requires Coerce(lib, req.kind, req.text, req.checked).Ok?
    ensures var old_ := props[req.name].elems;
            var v := Coerce(lib, req.kind, req.text, req.checked).value;
            var r := InputChange(lib, props, setterThrows, req);
            (r.Write? || r.Failed?) &&
            (r.Write? ==> r.value.Arr? && |r.value.elems| == |old_| &&
                          r.value.elems[req.idx.value] == v &&
                          forall j :: 0 <= j < |old_| && j != req.idx.value ==> r.value.elems[j] == old_[j])
  {
  }

  /** The handler's catch is reached exactly for a rejected colour, for an
      indexed edit of an owned property that is currently undefined or null,
      and for a setter that throws on the value to be written. */
  lemma FailedIff(lib: Library, props: map<string, Value>,
                  setterThrows: (string, Value) -> Option<Exception>, req: EditRequest)
    ensures var c := Coerce(lib, req.kind, req.text, req.checked);
            InputChange(lib, props, setterThrows, req).Failed? <==>
              || (req.kind == ColorInput && lib.newColor(req.text).Throw?)
              || (c.Ok? && req.name in props && req.idx.Some? &&
                  (props[req.name].Undef? || props[req.name].Null?))
              || (c.Ok? && req.name in props && req.idx.None? &&
                  setterThrows(req.name, c.value).Some?)
              || (c.Ok? && req.name in props && req.idx.Some? && ArrayFrom(props[req.name]).Ok? &&
                  setterThrows(req.name, Arr(SetAt(ArrayFrom(props[req.name]).value, req.idx.value, c.value))).Some?)
  {
    CoerceFailsIff(lib, req.kind, req.text, req.checked);
  }

  /** Reserved texts typed into a text input set an owned attribute to
      `undefined` or `null`. */
  lemma SentinelEdits(lib: Library, props: map<string, Value>,
                      setterThrows: (string, Value) -> Option<Exception>, name: string)
    requires name in props
    requires setterThrows(name, Undef).None? && setterThrows(name, Null).None?
    ensures InputChange(lib, props, setterThrows, EditRequest(name, TextInput, None, "undefined", false)) == Write(Undef)
    ensures InputChange(lib, props, setterThrows, EditRequest(name, TextInput, None, "null", false)) == Write(Null)
  {
  }

  /** Text that is not a number is not an error: it writes NaN. */
  lemma BadNumberWritesNaN(lib: Library, props: map<string, Value>,
                           setterThrows: (string, Value) -> Option<Exception>, name: string, text: string)
    requires name in props && lib.parseFloat(text) == NaN
    requires setterThrows(name, Num(NaN)).None?
    ensures InputChange(lib, props, setterThrows, EditRequest(name, NumberInput, None, text, false)) == Write(Num(NaN))
  {
  }

  /** Editing index 1 of `pos = [100, 200]` with "250" writes `[100, 250]`. */
  lemma PosElementEdit(lib: Library, setterThrows: (string, Value) -> Option<Exception>)
    requires lib.parseFloat("250") == Finite(250.0)
    requires setterThrows("pos", Arr([Num(Finite(100.0)), Num(Finite(250.0))])).None?
    ensures InputChange(lib, map["pos" := Arr([Num(Finite(100.0)), Num(Finite(200.0))])], setterThrows,
                        EditRequest("pos", NumberInput, Some(1), "250", false))
            == Write(Arr([Num(Finite(100.0)), Num(Finite(250.0))]))
  {
    var es := [Num(Finite(100.0)), Num(Finite(200.0))];
    assert SetAt(es, 1, Num(Finite(250.0))) == [Num(Finite(100.0)), Num(Finite(250.0))];
  }

  /** A select change on `style` writes only on a slider, and always as a
      one-element array of the option text (a string, not the style symbol);
      any other name gets the option text itself. */
  lemma SelectChangeValues(name: string, isSlider: bool, text: string)
    ensures SelectChange(name, isSlider, text).None? <==> name == "style" && !isSlider
    ensures name == "style" && isSlider ==> SelectChange(name, isSlider, text) == Some(Arr([Str(text)]))
    ensures name != "style" ==> SelectChange(name, isSlider, text) == Some(Str(text))
  {
  }

  /** The catch block loses native errors: an indexed edit of an attribute that
      has meanwhile become `undefined` fails with a TypeError, yet the input is
      left unmarked, since reading `err.error.error` throws inside the catch. */
  lemma CatchBlockLosesNativeErrors(lib: Library, setterThrows: (string, Value) -> Option<Exception>)
    ensures var r := InputChange(lib, map["pos" := Undef], setterThrows,
                                 EditRequest("pos", TextInput, Some(0), "1", false));
            r == Failed(NativeTypeError) && !ErrorFlagAsWritten(false, r)
  {
  }
}

=== FILE: inspector.dfy ===
/** The inspector itself (`StimInspector`): the inspected stimulus, the rows
    of its panel with their hidden and error marks, the filter text, and the
    event handlers that change them. DOM nodes are replaced by this state. */
module Inspector {
  import opened Values
  import opened Classifier
  import opened Editor
  import opened Stimuli
  import opened Scene

  /** One `.stim-attr` row: the attribute name, its widget, and whether the
      row carries the `hidden` class. */
  datatype Row = Row(name: string, widget: Widget, hidden: bool)

  /** An input element of the panel: input `input` of row `row`. */
  datatype InputRef = InputRef(row: nat, input: nat)

  /** `needle` occurs in `hay` at position `i`. */
  predicate OccursAt(hay: string, needle: string, i: int) {
    0 <= i && i + |needle| <= |hay| && hay[i..i + |needle|] == needle
  }

  /** The first position at or after `from` where `needle` occurs in `hay`, or -1. */
  function IndexOfFrom(hay: string, needle: string, from: nat): (r: int)
    decreases |hay| - from
    ensures r == -1 || (from <= r && OccursAt(hay, needle, r))
    ensures r == -1 <==> forall i :: from <= i ==> !OccursAt(hay, needle, i)
    ensures r != -1 ==> forall i :: from <= i < r ==> !OccursAt(hay, needle, i)
  {
    if from + |needle| > |hay| then -1
    else if hay[from..from + |needle|] == needle then from
    else IndexOfFrom(hay, needle, from + 1)
  }

  /** `hay.indexOf(needle)`: the first position of `needle` in `hay`, or -1. */
  function IndexOf(hay: string, needle: string): (r: int)
    ensures r == -1 <==> forall i :: !OccursAt(hay, needle, i)
    ensures r != -1 ==> OccursAt(hay, needle, r) && forall i :: 0 <= i < r ==> !OccursAt(hay, needle, i)
  {
    IndexOfFrom(hay, needle, 0)
  }

  /** The rows after `_filterAttrsDOM(text)`: the same rows, each hidden
      exactly when its name does not contain `text`. */
  function Filtered(rows: seq<Row>, text: string): seq<Row> {
    seq(|rows|, i requires 0 <= i < |rows| => rows[i].(hidden := IndexOf(rows[i].name, text) == -1))
  }

  /** The freshly built row of attribute `name`. */
  function AttrRow(name: string, props: map<string, Value>, isSlider: bool, styles: seq<string>): Row {
    Row(name, AttrWidget(name, Lookup(props, name), isSlider, styles), false)
  }

  predicate AllRender(attrs: seq<string>, props: map<string, Value>, isSlider: bool, styles: seq<string>) {
    forall i :: 0 <= i < |attrs| ==> Renders(AttrRow(attrs[i], props, isSlider, styles).widget)
  }

  /** `_constructStimHTML`: one row per user attribute, in declared order, or
      `None` when building some row's markup throws. */
  function StimRows(attrs: seq<string>, props: map<string, Value>, isSlider: bool, styles: seq<string>)
    : Option<seq<Row>>
  {
    if AllRender(attrs, props, isSlider, styles)
    then Some(seq(|attrs|, i requires 0 <= i < |attrs| => AttrRow(attrs[i], props, isSlider, styles)))
    else None
  }

  /** Row i of the filtered panel is hidden exactly when its name has no
      occurrence of the filter text; names and widgets are kept. */
  lemma FilteredRows(rows: seq<Row>, text: string)
    ensures |Filtered(rows, text)| == |rows|
    ensures forall i :: 0 <= i < |rows| ==>
              && Filtered(rows, text)[i].name == rows[i].name
              && Filtered(rows, text)[i].widget == rows[i].widget
              && (Filtered(rows, text)[i].hidden <==> forall p :: !OccursAt(rows[i].name, text, p))
  {
  }

  /** The empty filter shows every row. */
  lemma EmptyFilterShowsAll(rows: seq<Row>)
    ensures forall i :: 0 <= i < |rows| ==> !Filtered(rows, "")[i].hidden
  {
  }

  /** After a successful display the panel lists exactly the user attributes,
      in declared order, each with the widget of its current value, hidden
      exactly when its name does not contain the filter text. */
  lemma DisplayedRows(attrs: seq<string>, props: map<string, Value>, isSlider: bool,
                      styles: seq<string>, filter: string)
    requires StimRows(attrs, props, isSlider, styles).Some?
    ensures var rows := Filtered(StimRows(attrs, props, isSlider, styles).value, filter);
            |rows| == |attrs| &&
            forall i :: 0 <= i < |attrs| ==>
              && rows[i].name == attrs[i]
              && rows[i].widget == AttrWidget(attrs[i], Lookup(props, attrs[i]), isSlider, styles)
              && (rows[i].hidden <==> forall p :: !OccursAt(attrs[i], filter, p))
  {
  }

  /** Building the rows throws exactly when some user attribute is a primitive
      array with a symbol, or an array reaching one, after its first element. */
  lemma StimRowsFailIff(attrs: seq<string>, props: map<string, Value>, isSlider: bool, styles: seq<string>)
    ensures StimRows(attrs, props, isSlider, styles).None? <==>
            exists i :: 0 <= i < |attrs| && attrs[i] != "units" && IsPrimitiveArray(Lookup(props, attrs[i])) &&
                        exists k :: 0 < k < |Lookup(props, attrs[i]).elems| && HasSym(Lookup(props, attrs[i]).elems[k])
  {
    forall i | 0 <= i < |attrs| {
      RendersIff(attrs[i], Lookup(props, attrs[i]), isSlider, styles);
    }
  }

  /** `x = [1, [Symbol.for("a")]]` takes the per-element branch, and the
      second element's string conversion throws, so no rows are built. */
  lemma NestedSymbolBlocksRows(isSlider: bool, styles: seq<string>)
    ensures var v := Arr([Num(Finite(1.0)), Arr([Sym("a")])]);
            IsPrimitiveArray(v) && !Renders(AttrWidget("x", v, isSlider, styles)) &&
            StimRows(["x"], map["x" := v], isSlider, styles) == None
  {
    var v := Arr([Num(Finite(1.0)), Arr([Sym("a")])]);
    assert HasSym(v.elems[1]) by { assert Sym("a") in v.elems[1].elems; }
    RendersIff("x", v, isSlider, styles);
    var props := map["x" := v];
    assert Lookup(props, "x") == v;
    assert !Renders(AttrRow(["x"][0], props, isSlider, styles).widget);
  }

  class StimInspector {
    const lib: Library
    var inspected: Option<Stimulus>
    var rows: seq<Row>
    var errored: set<InputRef>
    var filterText: string

    /** Rows exist only once some stimulus has been inspected. */
    ghost predicate Valid()
      reads this
    {
      rows != [] ==> inspected.Some?
    }

    predicate IsInputRef(ref: InputRef)
      reads this
    {
      ref.row < |rows| && rows[ref.row].widget.Inputs? && ref.input < |rows[ref.row].widget.inputs|
    }

    /** The request an input event of `ref` makes: the input's name, type and
        index, and what the user entered. */
    function RequestFor(ref: InputRef, text: string, checked: bool): EditRequest
      reads this
      requires IsInputRef(ref)
    {
      var input := rows[ref.row].widget.inputs[ref.input];
      EditRequest(rows[ref.row].name, input.kind, input.idx, text, checked)
    }

    constructor (lib: Library)
      ensures Valid() && this.lib == lib
      ensures inspected == None && rows == [] && errored == {} && filterText == ""
    {
      this.lib := lib;
      inspected := None;
      rows := [];
      errored := {};
      filterText := "";
    }

    /** `_constructStimHTML`: the rows of `stim`, attribute by attribute. */
    method ConstructStimRows(stim: Stimulus) returns (built: Option<seq<Row>>)
      ensures built == StimRows(stim.userAttributes, stim.props, stim.isSlider, lib.sliderStyles)
    {
      var attrs, props, isSlider, styles := stim.userAttributes, stim.props, stim.isSlider, lib.sliderStyles;
      var acc: seq<Row> := [];
      var i := 0;
      while i < |attrs|
        invariant 0 <= i <= |attrs|
        invariant |acc| == i
        invariant forall j :: 0 <= j < i ==> acc[j] == AttrRow(attrs[j], props, isSlider, styles)
        invariant forall j :: 0 <= j < i ==> Renders(AttrRow(attrs[j], props, isSlider, styles).widget)
      {
        var w := ConstructInputForAttr(attrs[i], Lookup(props, attrs[i]), isSlider, styles);
        if w.None? {
          return None;
        }
        acc := acc + [Row(attrs[i], w.value, false)];
        i := i + 1;
      }
      assert AllRender(attrs, props, isSlider, styles);
      assert acc == seq(|attrs|, j requires 0 <= j < |attrs| => AttrRow(attrs[j], props, isSlider, styles));
      return Some(acc);
    }

    /** `_filterAttrsDOM`: marks each row hidden or not by its name. */
    method FilterAttrs(text: string)
      modifies this`rows
      ensures |rows| == |old(rows)|
      ensures rows == Filtered(old(rows), text)
    {
      ghost var before := rows;
      var i := 0;
      while i < |rows|
        invariant 0 <= i <= |rows| == |before|
        invariant forall j :: 0 <= j < i ==> rows[j] == before[j].(hidden := IndexOf(before[j].name, text) == -1)
        invariant forall j :: i <= j < |rows| ==> rows[j] == before[j]
      {
        if IndexOf(rows[i].name, text) != -1 {
          rows := rows[i := rows[i].(hidden := false)];
        } else {
          rows := rows[i := rows[i].(hidden := true)];
        }
        i := i + 1;
      }
    }

    /** `_onFilterInput`: the filter text changes and the rows are filtered by it. */
    method OnFilterInput(text: string)
      requires Valid()
      modifies this`rows, this`filterText
      ensures Valid()
      ensures filterText == text && rows == Filtered(old(rows), text)
    {
      filterText := text;
      FilterAttrs(text);
    }

    /** `displayStimData`: `stim` becomes the inspected stimulus; its rows
        replace the panel's and are filtered by the current filter text. When
        building the rows throws, the old rows stay. */
    method DisplayStimData(stim: Stimulus) returns (shown: bool)
      requires Valid()
      modifies this`inspected, this`rows, this`errored
      ensures Valid()
      ensures inspected == Some(stim)
      ensures var built := StimRows(stim.userAttributes, stim.props, stim.isSlider, lib.sliderStyles);
              && shown == built.Some?
              && (shown ==> rows == Filtered(built.value, filterText) && errored == {})
              && (!shown ==> rows == old(rows) && errored == old(errored))
    {
      inspected := Some(stim);
      var built := ConstructStimRows(stim);
      if built.None? {
        return false;
      }
      rows := built.value;
      errored := {};
      FilterAttrs(filterText);
      shown := true;
    }

    /** `_onWindowClick`: the stimulus drawn by the topmost child hit (or, for a
        click over no child, the first stimulus without a renderable) is
        displayed; when there is none, nothing changes. */
    method OnWindowClick(children: seq<SceneChild>, drawList: seq<Stimulus>)
      requires Valid()
      modifies this`inspected, this`rows, this`errored
      ensures Valid()
      ensures var target := Owner(drawList, HitPixi(children));
              && (target.None? ==> inspected == old(inspected) && rows == old(rows) && errored == old(errored))
              && (target.Some? ==> inspected == target)
              && (target.Some? ==>
                    var built := StimRows(target.value.userAttributes, target.value.props,
                                          target.value.isSlider, lib.sliderStyles);
                    if built.Some? then rows == Filtered(built.value, filterText) && errored == {}
                    else rows == old(rows) && errored == old(errored))
    {
      var clickedPixi := FindClickedPixi(children);
      var clickedStim := FindClickedStim(drawList, clickedPixi);
      if clickedStim.Some? {
        var _ := DisplayStimData(clickedStim.value);
      }
    }

    /** `_onAttrInputChange`: applies the input's edit to the inspected
        stimulus and marks the input errored exactly when the edit failed
        (any exception, whether or not it carries an `error` property). */
    method OnAttrInputChange(ref: InputRef, text: string, checked: bool)
      requires Valid() && IsInputRef(ref) && !rows[ref.row].widget.inputs[ref.input].disabled
      modifies this`errored, inspected.value`props
      ensures var stim := inspected.value;
              var r := InputChange(lib, old(stim.props), stim.setterThrows, RequestFor(ref, text, checked));
              && stim.props == (if r.Write? then old(stim.props)[rows[ref.row].name := r.value] else old(stim.props))
              && (ref in errored <==> r.Failed?)
              && errored - {ref} == old(errored) - {ref}
    {
      var stim := inspected.value;
      var req := RequestFor(ref, text, checked);
      var r := InputChange(lib, stim.props, stim.setterThrows, req);
      if r.Write? {
        var _ := stim.Assign(req.name, r.value);
      }
      if r.Failed? {
        errored := errored + {ref};
      } else {
        errored := errored - {ref};
      }
    }

    /** `_onAttrSelectChange`: writes the selected text as `SelectChange`
        says, without the ownership check; a setter that throws leaves the
        stimulus unchanged and the exception escapes. */
    method OnAttrSelectChange(row: nat, text: string) returns (thrown: Option<Exception>)
      requires Valid() && row < |rows| && rows[row].widget.Select?
      modifies inspected.value`props
      ensures var stim := inspected.value;
              var name := rows[row].name;
              var w := SelectChange(name, stim.isSlider, text);
              && thrown == (if w.Some? then stim.setterThrows(name, w.value) else None)
              && stim.props == (if w.Some? && thrown.None? then old(stim.props)[name := w.value] else old(stim.props))
    {
      var stim := inspected.value;
      var name := rows[row].name;
      thrown := None;
      if name == "style" {
        if stim.isSlider {
          thrown := stim.Assign(name, Arr([Str(text)]));
        }
      } else {
        thrown := stim.Assign(name, Str(text));
      }
    }

    /** `_onTriggerRefreshClick`: flags the inspected stimulus, if any, for
        re-rendering. */
    method OnTriggerRefreshClick()
      modifies if inspected.Some? then {inspected.value} else {}
      ensures inspected.Some? ==> inspected.value.needUpdate && inspected.value.needPixiUpdate
      ensures inspected.Some? ==> inspected.value.props == old(inspected.value.props)
      ensures inspected.Some? ==> inspected.value.userAttributes == old(inspected.value.userAttributes)
      ensures inspected.Some? ==> inspected.value.pixi == old(inspected.value.pixi)
    {
      if inspected.None? {
        return;
      }
      inspected.value.needUpdate := true;
      inspected.value.needPixiUpdate := true;
    }
  }
}

=== FILE: roundtrip.dfy ===
/** Edits followed by a fresh display: what the panel shows for an attribute
    after an input or select edit has been written back. */
module RoundTrip {
  import opened Values
  import opened Classifier
  import opened Editor

  /** Toggling a checkbox of an owned boolean and displaying again shows the
      checkbox in the new state. */
  lemma CheckboxRoundTrip(lib: Library, props: map<string, Value>,
                          setterThrows: (string, Value) -> Option<Exception>,
                          name: string, checked: bool, isSlider: bool, styles: seq<string>)
    requires name != "units" && name in props
    requires setterThrows(name, Bool(checked)).None?
    ensures var r := InputChange(lib, props, setterThrows, EditRequest(name, CheckboxInput, None, "on", checked));
            r == Write(Bool(checked)) &&
            AttrWidget(name, r.value, isSlider, styles) ==
              Inputs([Input(CheckboxInput, false, Bool(checked), None, None)])
  {
  }

  /** A number typed into a number input is shown again as that number (NaN
      included), with the step of the attribute's name. */
  lemma NumberRoundTrip(lib: Library, props: map<string, Value>,
                        setterThrows: (string, Value) -> Option<Exception>,
                        name: string, text: string, isSlider: bool, styles: seq<string>)
    requires name != "units" && name in props
    requires setterThrows(name, Num(lib.parseFloat(text))).None?
    ensures var r := InputChange(lib, props, setterThrows, EditRequest(name, NumberInput, None, text, false));
            r == Write(Num(lib.parseFloat(text))) &&
            AttrWidget(name, r.value, isSlider, styles) ==
              Inputs([Input(NumberInput, false, Num(lib.parseFloat(text)), None, Some(StepFor(name)))])
  {
  }

  /** Text typed into a text input comes back as an enabled text input showing
      that text, except "null": the attribute becomes null and the next
      display shows the disabled "Object field" placeholder. */
  lemma TextRoundTrip(lib: Library, props: map<string, Value>,
                      setterThrows: (string, Value) -> Option<Exception>,
                      name: string, text: string, isSlider: bool, styles: seq<string>)
    requires name != "units" && name in props
    requires setterThrows(name, Coerce(lib, TextInput, text, false).value).None?
    ensures var r := InputChange(lib, props, setterThrows, EditRequest(name, TextInput, None, text, false));
            r.Write? &&
            AttrWidget(name, r.value, isSlider, styles) ==
              if text == "null" then Inputs([Placeholder("Object field")])
              else Inputs([Input(TextInput, false, Str(text), None, None)])
  {
  }

  /** A colour the Color constructor accepts is written as a Color and shown
      again as a colour input holding its hex value. */
  lemma ColorRoundTrip(lib: Library, props: map<string, Value>,
                       setterThrows: (string, Value) -> Option<Exception>,
                       name: string, text: string, hex: string, isSlider: bool, styles: seq<string>)
    requires name != "units" && name in props
    requires lib.newColor(text) == Ok(hex)
    requires setterThrows(name, Color(hex)).None?
    ensures var r := InputChange(lib, props, setterThrows, EditRequest(name, ColorInput, None, text, false));
            r == Write(Color(hex)) &&
            AttrWidget(name, r.value, isSlider, styles) ==
              Inputs([Input(ColorInput, false, Str(hex), None, None)])
  {
  }

  /** Editing one element of a primitive array and displaying again changes
      exactly that element's input, provided the new element keeps the array
      primitive (relevant only at index 0). */
  lemma ElementEditRoundTrip(lib: Library, props: map<string, Value>,
                             setterThrows: (string, Value) -> Option<Exception>,
                             req: EditRequest, isSlider: bool, styles: seq<string>)
    requires req.name != "units" && req.name in props && IsPrimitiveArray(props[req.name])
    requires req.idx.Some? && req.idx.value < |props[req.name].elems|
    requires Coerce(lib, req.kind, req.text, req.checked).Ok?
    requires var v := Coerce(lib, req.kind, req.text, req.checked).value;
             req.idx.value == 0 ==> !v.Sym? && !IsObjectType(v)
    requires var es := props[req.name].elems;
             var v := Coerce(lib, req.kind, req.text, req.checked).value;
             setterThrows(req.name, Arr(es[req.idx.value := v])).None?
    ensures var es := props[req.name].elems;
            var k := req.idx.value;
            var v := Coerce(lib, req.kind, req.text, req.checked).value;
            var r := InputChange(lib, props, setterThrows, req);
            var before := AttrWidget(req.name, props[req.name], isSlider, styles);
            r.Write? &&
            var after := AttrWidget(req.name, r.value, isSlider, styles);
            && before.Inputs? && after.Inputs? && |after.inputs| == |before.inputs| == |es|
            && after.inputs[k] == Input(if v.Str? then TextInput else NumberInput, false, v, Some(k), Some(StepFor(req.name)))
            && forall j :: 0 <= j < |es| && j != k ==> after.inputs[j] == before.inputs[j]
  {
    var es := props[req.name].elems;
    var k := req.idx.value;
    var v := Coerce(lib, req.kind, req.text, req.checked).value;
    assert SetAt(es, k, v) == es[k := v];
    ElementInputsAt(req.name, es);
    ElementInputsAt(req.name, es[k := v]);
  }

  /** Only the first element decides how an array is shown: an edit that puts
      an object (null, or a Color from a colour input) at index 0 of a
      primitive array turns the whole row into the disabled "Array of
      Objects" placeholder, whatever the other elements are. */
  lemma ElementZeroDecidesArray(lib: Library, props: map<string, Value>,
                                setterThrows: (string, Value) -> Option<Exception>,
                                req: EditRequest, isSlider: bool, styles: seq<string>)
    requires req.name != "units" && req.name in props && IsPrimitiveArray(props[req.name])
    requires req.idx == Some(0)
    requires Coerce(lib, req.kind, req.text, req.checked).Ok?
    requires IsObjectType(Coerce(lib, req.kind, req.text, req.checked).value)
    requires var es := props[req.name].elems;
             var v := Coerce(lib, req.kind, req.text, req.checked).value;
             setterThrows(req.name, Arr(es[0 := v])).None?
    ensures var r := InputChange(lib, props, setterThrows, req);
            r.Write? && r.value.Arr? && |r.value.elems| == |props[req.name].elems| &&
            AttrWidget(req.name, r.value, isSlider, styles) == Inputs([Placeholder("Array of Objects")])
  {
    var es := props[req.name].elems;
    var v := Coerce(lib, req.kind, req.text, req.checked).value;
    assert SetAt(es, 0, v) == es[0 := v];
  }

  /** Typing "null" into element 0 of `["a", "b"]` writes `[null, "b"]`, which
      is shown as the "Array of Objects" placeholder rather than two inputs. */
  lemma NullFirstElementHidesArray(lib: Library, setterThrows: (string, Value) -> Option<Exception>,
                                   isSlider: bool, styles: seq<string>)
    requires setterThrows("labels", Arr([Null, Str("b")])).None?
    ensures var props := map["labels" := Arr([Str("a"), Str("b")])];
            var r := InputChange(lib, props, setterThrows, EditRequest("labels", TextInput, Some(0), "null", false));
            r == Write(Arr([Null, Str("b")])) &&
            AttrWidget("labels", r.value, isSlider, styles) == Inputs([Placeholder("Array of Objects")])
  {
    var es := [Str("a"), Str("b")];
    assert SetAt(es, 0, Null) == [Null, Str("b")];
  }

  /** Choosing a unit writes its text, and the next display selects exactly
      that unit. */
  lemma UnitsSelectRoundTrip(unit: string, isSlider: bool, styles: seq<string>)
    requires unit in Units
    ensures SelectChange("units", isSlider, unit) == Some(Str(unit))
    ensures var w := AttrWidget("units", Str(unit), isSlider, styles);
            w.Select? && |w.options| == |Units| &&
            forall k :: 0 <= k < |Units| ==> (w.options[k].selected <==> Units[k] == unit)
  {
    UnitsSelect(Str(unit), isSlider, styles);
  }

  /** Choosing a slider style writes a one-element array holding the option's
      text, not the style symbol; unless the setter converts it back, the next
      display shows a text input in place of the select. */
  lemma SliderStyleRoundTrip(key: string, styles: seq<string>)
    ensures SelectChange("style", true, key) == Some(Arr([Str(key)]))
    ensures AttrWidget("style", Arr([Str(key)]), true, styles) ==
            Inputs([Input(TextInput, false, Str(key), Some(0), Some(1.0))])
  {
  }
}

=== FILE: scene.dfy ===
/** Click hit-testing and stimulus correlation (`_onWindowClick`): the topmost
    child of the stimulus container under the cursor, then the first stimulus
    of the draw list drawn by it. */
module Scene {
  import opened Values
  import opened Stimuli

  /** A child of the stimulus container with its two tests already evaluated at
      the click point: whether it has a `containsPoint` function and what it
      returns, and whether the inverse-transformed point lies in its local
      bounds. The transform and bounds arithmetic is the renderer's. */
  datatype SceneChild = SceneChild(pixi: Renderable, hasContainsPoint: bool,
                                   containsPoint: bool, inLocalBounds: bool)

  /** A child is hit when `containsPoint` is a function answering true, or
      else — also when `containsPoint` exists but answers false — when the
      point lies in its local bounds. */
  predicate Hits(c: SceneChild) {
    (c.hasContainsPoint && c.containsPoint) || c.inLocalBounds
  }

  /** The index of the child that is hit and drawn last, if any. */
  function TopmostHit(children: seq<SceneChild>): (r: Option<nat>)
    ensures r.Some? ==> r.value < |children| && Hits(children[r.value])
    ensures r.Some? ==> forall j :: r.value < j < |children| ==> !Hits(children[j])
    ensures r.None? <==> forall j :: 0 <= j < |children| ==> !Hits(children[j])
  {
    if children == [] then None
    else if Hits(children[|children| - 1]) then Some(|children| - 1)
    else TopmostHit(children[..|children| - 1])
  }

  /** `clickedPixi`: the renderable of the topmost child hit, or undefined. */
  function HitPixi(children: seq<SceneChild>): Option<Renderable> {
    match TopmostHit(children)
    case Some(i) => Some(children[i].pixi)
    case None => None
  }

  /** The index of the first draw-list entry at or after `from` whose `_pixi`
      is strictly equal to `hit` (undefined equals undefined). */
  function OwnerFrom(drawList: seq<Stimulus>, hit: Option<Renderable>, from: nat): (r: Option<nat>)
    reads drawList
    requires from <= |drawList|
    decreases |drawList| - from
    ensures r.Some? ==> from <= r.value < |drawList| && drawList[r.value].pixi == hit
    ensures r.Some? ==> forall j :: from <= j < r.value ==> drawList[j].pixi != hit
    ensures r.None? <==> forall j :: from <= j < |drawList| ==> drawList[j].pixi != hit
  {
    if from == |drawList| then None
    else if drawList[from].pixi == hit then Some(from)
    else OwnerFrom(drawList, hit, from + 1)
  }

  /** `clickedStim`: the first draw-list entry drawn by `hit`, if any. */
  function Owner(drawList: seq<Stimulus>, hit: Option<Renderable>): Option<Stimulus>
    reads drawList
  {
    match OwnerFrom(drawList, hit, 0)
    case Some(k) => Some(drawList[k])
    case None => None
  }

  /** The scan from the last child down, stopping at the first hit. */
  method FindClickedPixi(children: seq<SceneChild>) returns (clicked: Option<Renderable>)
    ensures clicked == HitPixi(children)
    ensures clicked.Some? <==> exists j :: 0 <= j < |children| && Hits(children[j])
  {
    clicked := None;
    var i := |children| - 1;
    while i >= 0
      invariant -1 <= i < |children|
      invariant forall j :: i < j < |children| ==> !Hits(children[j])
    {
      if children[i].hasContainsPoint && children[i].containsPoint {
        clicked := Some(children[i].pixi);
        return;
      } else if children[i].inLocalBounds {
        clicked := Some(children[i].pixi);
        return;
      }
      i := i - 1;
    }
  }

  /** The scan of the draw list from the front, stopping at the first entry
      drawn by `hit`. */
  method FindClickedStim(drawList: seq<Stimulus>, hit: Option<Renderable>) returns (clicked: Option<Stimulus>)
    ensures clicked == Owner(drawList, hit)
    ensures clicked.Some? ==> clicked.value in drawList && clicked.value.pixi == hit
  {
    clicked := None;
    var i := 0;
    while i < |drawList|
      invariant 0 <= i <= |drawList|
      invariant forall j :: 0 <= j < i ==> drawList[j].pixi != hit
    {
      if drawList[i].pixi == hit {
        clicked := Some(drawList[i]);
        return;
      }
      i := i + 1;
    }
  }

  /** Children drawn above the selected one are never selected: the hit is the
      highest-index child that passes either test. */
  lemma HitIsTopmost(children: seq<SceneChild>, i: nat)
    requires i < |children| && Hits(children[i])
    requires forall j :: i < j < |children| ==> !Hits(children[j])
    ensures TopmostHit(children) == Some(i)
    ensures HitPixi(children) == Some(children[i].pixi)
  {
  }

  /** A click over no child still selects a stimulus when some draw-list entry
      has no renderable: the first such entry. */
  lemma MissMatchesPixiless(children: seq<SceneChild>, drawList: seq<Stimulus>, k: nat)
    requires forall j :: 0 <= j < |children| ==> !Hits(children[j])
    requires k < |drawList| && drawList[k].pixi.None?
    requires forall j :: 0 <= j < k ==> drawList[j].pixi.Some?
    ensures Owner(drawList, HitPixi(children)) == Some(drawList[k])
  {
  }
}

=== FILE: stimuli.dfy ===
/** The engine objects the inspector works on: low-level renderables and the
    high-level stimuli that own them. */
module Stimuli {
  import opened Values

  /** A display object of the renderer. Only its identity matters here: the
      hit test's outcome for it is supplied per click (see Scene). */
  class Renderable {
  }

  /** A stimulus: its own properties by name, the user-facing attribute names in
      declared order (`_userAttributes`), whether it is a Slider, the
      renderable that draws it (`_pixi`, possibly undefined), its re-render
      flags, and the behaviour of its property setters, which either store the
      assigned value or throw. */
  class Stimulus {
    var props: map<string, Value>
    var userAttributes: seq<string>
    const isSlider: bool
    var pixi: Option<Renderable>
    var needUpdate: bool
    var needPixiUpdate: bool
    const setterThrows: (string, Value) -> Option<Exception>

    constructor (props: map<string, Value>, userAttributes: seq<string>, isSlider: bool,
                 pixi: Option<Renderable>, setterThrows: (string, Value) -> Option<Exception>)
      ensures this.props == props && this.userAttributes == userAttributes
      ensures this.isSlider == isSlider && this.pixi == pixi && this.setterThrows == setterThrows
      ensures !needUpdate && !needPixiUpdate
    {
      this.props := props;
      this.userAttributes := userAttributes;
      this.isSlider := isSlider;
      this.pixi := pixi;
      this.setterThrows := setterThrows;
      needUpdate, needPixiUpdate := false, false;
    }

    /** `stim[name] = v`: through the setter, which either stores `v` (creating
        an own property if there was none) or throws and stores nothing. */
    method Assign(name: string, v: Value) returns (thrown: Option<Exception>)
      modifies this`props
      ensures thrown == setterThrows(name, v)
      ensures props == if thrown.None? then old(props)[name := v] else old(props)
    {
      thrown := setterThrows(name, v);
      if thrown.None? {
        props := props[name := v];
      }
    }
  }
}

=== FILE: values.dfy ===
/** The run-time values a stimulus attribute can hold, as the inspector
    observes them through `typeof`, `instanceof` and strict equality. */
module Values {

  datatype Option<+T> = None | Some(value: T)

  /** A JavaScript number. A finite double is represented by its real value;
      rounding is not modelled. */
  datatype Number = Finite(r: real) | NaN | PosInfinity | NegInfinity

  /** A thrown JavaScript value. `carriesError` holds when the thrown value has
      a non-null `error` property, as the library's own error objects do;
      native errors such as a TypeError do not. */
  datatype Exception = Exception(carriesError: bool)

  /** The TypeError the engine throws, e.g. for `Array.from(undefined)`. */
  const NativeTypeError := Exception(false)

  datatype Result<+T> = Ok(value: T) | Throw(exc: Exception)

  /** An attribute value. `Sym(key)` is the registered symbol `Symbol.for(key)`,
      so two symbols are the same exactly when their keys are; `Color(hex)` is
      an instance of the library's Color class; `Obj` is any other object. */
  datatype Value =
    | Undef
    | Null
    | Bool(b: bool)
    | Num(n: Number)
    | Str(s: string)
    | Sym(key: string)
    | Color(hex: string)
    | Arr(elems: seq<Value>)
    | Obj
    | Func

  /** `typeof v === "object"`: null, arrays, Color instances and other objects. */
  predicate IsObjectType(v: Value) {
    v.Null? || v.Obj? || v.Arr? || v.Color?
  }

  /** Converting `v` to a string throws: `v` is a symbol, or an array whose
      `join` meets a symbol in some element, however deeply nested. */
  predicate HasSym(v: Value) {
    v.Sym? || (v.Arr? && exists e :: e in v.elems && HasSym(e))
  }

  /** `v[0]`: the first element of an array, the first character of a string,
      and `undefined` for every other value. */
  function Index0(v: Value): Value {
    match v
    case Arr(es) => if |es| > 0 then es[0] else Undef
    case Str(s) => if |s| > 0 then Str([s[0]]) else Undef
    case _ => Undef
  }

  /** Reading `obj[name]` where `props` are the object's own properties;
      inherited properties are not modelled, so a missing one reads `undefined`. */
  function Lookup(props: map<string, Value>, name: string): Value {
    if name in props then props[name] else Undef
  }
}
